=== FILE: README.md ===
# SupportPortal authentication bookkeeping, in Dafny

A model of the authentication core of the SupportPortal Spring Boot service,
with proofs about it:

- the login-attempt tracker `LoginAttempt`. It is a Guava cache from user
  name to failed-login count. Entries expire 15 minutes after their last
  write, the cache holds at most 100 entries, and the limit is 5 attempts.
- the lock decision `UserServiceImpl.validateLoginAttempt`, which
  `loadUserByUsername` runs on every login lookup.
- the two authentication event listeners, which feed the tracker.
- the account checks of `UserServiceImpl`:
  - the user-name and e-mail uniqueness check;
  - the profile-image content-type guard;
  - the role lookup.
- the per-request decision of `JWTAuthorizationFilter`.
- the claim rules of `JWTTokenProvider`: issuer, audience, subject,
  issued-at, expiry and authorities.

The model is a functional state machine. The tracker is an immutable map from
user name to (count, write time). Every operation takes the clock reading
`now` in milliseconds as a parameter.

The repository is a sequence of stored rows. A finder returns the first row
that matches. `save` replaces the row with the same id, or appends one.

A token is a string. The HS512 signature check and the compact-serialisation
decoding are an abstract `Decoder`. It yields the claims of a correctly signed,
well-formed token and null for anything else. Token dates are whole seconds,
as the library writes them (NumericDate, section 2 of RFC 7519). On top of
the decoder, the verifier does three things. These are the rules of the
verifier of the auth0 java-jwt 3.x release line; the library version is not
part of this model, and 3.x is assumed:

- it requires the issuer `GET_ARRAYS_LLC`, as `getJWTVerifier` configures;
- it applies the library's own expiry rule on its clock cut to whole
  seconds: a token is refused once its expiry date is strictly before `now`
  cut to whole seconds;
- it applies the library's issued-at and not-before rules on the same clock:
  a token is refused while either date lies after `now` cut to whole seconds.

`isTokenExpired` compares the expiry date with the exact `now` instead.

Java `null` is `Nullable`. A Java exception is an `Abrupt` completion that
names the exception.

Modules, one per source class:

- `JavaLang` holds null, the exceptions and the string predicates the code
  calls.
- `Domain` holds `User`, `UserPrincipal` and `Role`.
- The other modules are `LoginAttempt`, `AuthenticationListeners`,
  `UserServiceImpl`, `JWTTokenProvider` and `JWTAuthorizationFilter`.

### Behaviour of the code worth knowing

- A token that fails verification does not make the request anonymous.
  `getSubject` throws `JWTVerificationException`, so the filter throws
  before the chain is reached. This covers a bad signature, a wrong issuer,
  a token read before its issue second and a token read after its expiry
  second (`JWTAuthorizationFilter.RejectedTokenThrows`).
- An authentication already in the security context is not kept. A valid
  token with a populated context clears the context.
- The verifier accepts a token for the whole second of its expiry date:
  only an expiry date before `now` cut to whole seconds is refused. In the
  1000 ms after the expiry date, `isTokenExpired` already answers true. So
  the filter neither throws nor authenticates. It clears the context and
  calls the chain (`JWTAuthorizationFilter.JustExpiredTokenClearsContext`).
- A token without an authorities claim is not treated as having no
  permissions. `getAuthorities` dereferences null, and the exception leaves
  the filter. So do the null dereference of a verified token without an
  expiry date in `isTokenExpired` and the refusal of a blank authority.
- A successful authentication does not evict the attempt count. The
  success listener adds one attempt, but only for a `User` principal. On this
  application's login path the principal is the `UserPrincipal` that
  `loadUserByUsername` returns, which the listener leaves alone. There, the
  attempt a successful login adds comes from the lookup itself:
  `validateLoginAttempt` adds one for every login lookup of an unlocked user.
- A locked user's lookup evicts the count.

`SecurityConstant` is not modelled. Its constant values are assumed:

- token prefix `"Bearer "`;
- pre-flight method `"OPTIONS"`;
- issuer `"Get Arrays, LLC"`;
- audience `"User Management Portal"`;
- lifetime 432 000 000 ms.

Most properties do not depend on the particular strings. `TokenPrefix` and
the issuer are used only symbolically. `LowerCaseOptionsShortCircuits`
depends on the method name being `"OPTIONS"`.

## Model

| member | source | states |
|---|---|---|
| `LoginAttempt.Load` | src/main/java/com/supportportal/service/LoginAttempt.java:21-27 | a read returns the live count, or the loader's 0 for a missing or expired entry, and stores that 0 with write time `now`; reading a live entry leaves the cache, and so its write time, untouched; other entries are at most evicted |
| `LoginAttempt.Evict` | src/main/java/com/supportportal/service/LoginAttempt.java:22 | size eviction leaves at most 100 entries, never removes the entry just written and never alters a kept entry; which other entries go, and how many, is left open |
| `LoginAttempt.Write` | src/main/java/com/supportportal/service/LoginAttempt.java:43 | a put stores exactly (count, now) for its key, keeps the cache within 100 entries, and keeps for every other key only a live entry, unchanged |
| `LoginAttempt.AddUserToLoginAttempts` | src/main/java/com/supportportal/service/LoginAttempt.java:35-44 | the count read afterwards is exactly the previous count plus one, its write time is `now`, the cache stays within 100 entries, and every other key keeps its entry unchanged or is evicted |
| `LoginAttempt.HasExceededMaxAttempts` | src/main/java/com/supportportal/service/LoginAttempt.java:46-54 | true iff the count read at `now` is at least 5, false for a user with no count; the user's count is unchanged, other entries are at most evicted, and the 100-entry cap is kept even when the read stores the loader's 0 |
| `LoginAttempt.EvictUserFromLoginAttemptCache` | src/main/java/com/supportportal/service/LoginAttempt.java:30-33 | after an eviction the user's count reads 0 at every time, every other user's count is unchanged at every time, and the cap is kept |
| `LoginAttempt.AddKeepsOrEvictsOthers` | src/main/java/com/supportportal/service/LoginAttempt.java:35-44 | an add for one user never raises another user's count: at every time it reads as before, or as 0 once evicted |
| `LoginAttempt.AddThenWait` | src/main/java/com/supportportal/service/LoginAttempt.java:21 | an add at t0 reads as previous count plus one at any time less than 15 minutes later, and as 0 from 15 minutes on |
| `LoginAttempt.CheckDoesNotRefresh` | src/main/java/com/supportportal/service/LoginAttempt.java:46-49 | checking a live entry does not restart its 15 minutes: at any later time it reads as it would have without the check, and 0 once 15 minutes have passed since its write |
| `LoginAttempt.AddRepeatedlyCounts` | src/main/java/com/supportportal/service/LoginAttempt.java:35-44 | n adds for one user at non-decreasing times less than 15 minutes apart raise the count by exactly n |
| `LoginAttempt.FifthAttemptExceeds` | src/main/java/com/supportportal/service/LoginAttempt.java:35-49 | from a count of 0, four such adds leave the user under the limit and the fifth puts them over it |
| `AuthenticationListeners.OnAuthenticationFailure` | src/main/java/com/supportportal/listener/AuthenticationFailureListener.java:20-27 | a String principal's count goes up by exactly one and every other key keeps its entry or is evicted; any other principal leaves the tracker unchanged |
| `AuthenticationListeners.OnAuthenticationSuccess` | src/main/java/com/supportportal/listener/AuthenticationSuccessListener.java:21-28 | a `User` principal's count goes up by exactly one, so it is never reset or lowered; other keys keep their entries or are evicted; any other principal leaves the tracker unchanged |
| `AuthenticationListeners.SuccessCountsOnlyTheUser` | src/main/java/com/supportportal/listener/AuthenticationSuccessListener.java:21-28 | a success event raises no count but that of its `User` principal: every other count reads as before at every time, or as 0 once evicted |
| `AuthenticationListeners.ReplayFailuresIsAdding` | src/main/java/com/supportportal/listener/AuthenticationFailureListener.java:25 | a sequence of bad-credential events for a user name is the same sequence of tracker adds |
| `AuthenticationListeners.FiveFailuresExceed` | src/main/java/com/supportportal/listener/AuthenticationFailureListener.java:20-27 | five bad-credential events for a user name with no count, less than 15 minutes apart, put it over the limit |
| `UserServiceImpl.FindUserByUserName` | src/main/java/com/supportportal/service/implementation/UserServiceImpl.java:185-188 | finds a user iff some stored row has that name, and what it finds is a stored row with that name |
| `UserServiceImpl.FindUserByEmail` | src/main/java/com/supportportal/service/implementation/UserServiceImpl.java:190-194 | finds a user iff some stored row has that e-mail, and what it finds is a stored row with that e-mail |
| `UserServiceImpl.Save` | src/main/java/com/supportportal/service/implementation/UserServiceImpl.java:82 | the saved user is stored, every row with another id is kept, and nothing else appears |
| `UserServiceImpl.ValidateLoginAttempt` | src/main/java/com/supportportal/service/implementation/UserServiceImpl.java:89-103 | an unlocked user's count goes up by one, the user stays unlocked iff the new count is below 5, and every other key keeps its entry unchanged or is evicted; a locked user keeps the flag and their count reads 0 with every other count unchanged; no field but the lock flag changes, and the cap is kept |
| `UserServiceImpl.LoadUserByUsername` | src/main/java/com/supportportal/service/implementation/UserServiceImpl.java:72-87 | an unknown name throws `UsernameNotFoundException` with the name in its message; a known user goes through the lock decision, gets the previous login date as display date and `now` as login date with every other field but the lock flag unchanged, and is saved over its own row only; for an unlocked user other tracker keys keep their entries or are evicted, for a locked user its count reads 0 at every time and every other count is unchanged at every time; the cap is kept |
| `UserServiceImpl.ValidateNewUserNameAndEmail` | src/main/java/com/supportportal/service/implementation/UserServiceImpl.java:235-264 | with a blank current name: name taken throws `UserNameExistException`, else e-mail taken throws `EmailExistException`, else null; otherwise a missing current user throws `UsernameNotFoundException` and a name, then an e-mail, is refused only when it belongs to another user id, else the current user is returned |
| `UserServiceImpl.KeepingOwnNameAndEmailPasses` | src/main/java/com/supportportal/service/implementation/UserServiceImpl.java:239-255 | with unique names and e-mails, a user who keeps their own name and e-mail gets their own row back |
| `UserServiceImpl.TakingAnotherUsersNameFails` | src/main/java/com/supportportal/service/implementation/UserServiceImpl.java:246-249 | with unique names and e-mails, renaming to the name of a user with another id throws `UserNameExistException` |
| `UserServiceImpl.SaveProfileImageGuard` | src/main/java/com/supportportal/service/implementation/UserServiceImpl.java:266-271 | a null file passes; a non-null file passes iff its content type is image/jpeg, image/png or image/gif, and otherwise throws `NotAnImageFileException` naming the file |
| `UserServiceImpl.GetRoleEnumName` | src/main/java/com/supportportal/service/implementation/UserServiceImpl.java:302-304 | returns the role whose name is the upper-cased input, and throws `IllegalArgumentException` iff no role has that name |
| `UserServiceImpl.RoleNamesResolve` | src/main/java/com/supportportal/service/implementation/UserServiceImpl.java:302-304 | each of the five roles is found from its own name, written in upper or in lower case |
| `JWTTokenProvider.GenerateClaimsFromUserAsWritten` | src/main/java/com/supportportal/utility/JWTTokenProvider.java:98-105 | the authority claim as written succeeds only for a principal without authorities |
| `JWTTokenProvider.GenerateJWTToken` | src/main/java/com/supportportal/utility/JWTTokenProvider.java:36-47 | with the corrected `GenerateClaimsFromUser`: the token names issuer GET_ARRAYS_LLC, the principal's user name as subject and its authorities in order, carries issued-at and expiry cut to whole seconds, and its dates admit it at exactly the instants whose whole second lies from the issue second to the expiry second |
| `JWTTokenProvider.GenerateJWTTokenAsWritten` | src/main/java/com/supportportal/utility/JWTTokenProvider.java:36-47 | as written, a token is issued iff the principal has no authorities, and then it is the corrected one; otherwise `ArrayStoreException` |
| `JWTTokenProvider.Verify` | src/main/java/com/supportportal/utility/JWTTokenProvider.java:87-96 | a token is accepted, with its decoded claims, iff it decodes, has issuer GET_ARRAYS_LLC, its expiry date is not before `now` cut to whole seconds, and no issued-at or not-before date is after it; otherwise `JWTVerificationException` |
| `JWTTokenProvider.GetSubject` | src/main/java/com/supportportal/utility/JWTTokenProvider.java:72-75 | returns the verified subject, and throws exactly when verification fails |
| `JWTTokenProvider.IsTokenExpired` | src/main/java/com/supportportal/utility/JWTTokenProvider.java:77-80 | answers iff the token verifies and has an expiry date, and then answers whether that date is strictly before the exact `now`; a failed verify throws `JWTVerificationException`, a missing expiry date `NullPointerException` |
| `JWTTokenProvider.IsTokenValid` | src/main/java/com/supportportal/utility/JWTTokenProvider.java:66-70 | false for a null or empty user name without looking at the token; true iff the name is non-empty and the token verifies with an expiry date not before the exact `now`; an exception of `isTokenExpired` passes through unchanged |
| `JWTTokenProvider.ExpiryTestAfterVerify` | src/main/java/com/supportportal/utility/JWTTokenProvider.java:77-80 | once the verifier has accepted a token at `now`, the explicit expiry test answers or throws `NullPointerException` on a missing expiry date, and it answers true only when `now` lies in the 1000 ms after the expiry date |
| `JWTTokenProvider.GetAuthorities` | src/main/java/com/supportportal/utility/JWTTokenProvider.java:49-54 | succeeds iff the token verifies, carries an authorities claim and every string in it has text, giving one authority per string, same order and length; otherwise `JWTVerificationException` for a failed verify, `NullPointerException` for a missing claim, `IllegalArgumentException` for a blank string |
| `JWTTokenProvider.GetAuthentication` | src/main/java/com/supportportal/utility/JWTTokenProvider.java:56-64 | an authenticated token for the user name, with no credentials and exactly the given authorities |
| `JWTTokenProvider.IssuedTokenIsAccepted` | src/main/java/com/supportportal/utility/JWTTokenProvider.java:36-47 | with the corrected `GenerateClaimsFromUser`, an issued token read back between its issue instant and its expiry passes the verifier, carries audience GET_ARRAYS_ADMINISTRATION and the whole-second issued-at and expiry dates, and yields the principal's user name as subject and its authorities in order; `isTokenValid` holds iff the name is non-empty and `now` is not after the whole-second expiry date |
| `JWTTokenProvider.IssuedTokenExpires` | src/main/java/com/supportportal/utility/JWTTokenProvider.java:42-45 | with the corrected `GenerateClaimsFromUser`, an issued token is accepted exactly while the whole second of `now` lies from the issue second to the expiry second; from the epoch on, from the issue second up to 1000 ms past the whole-second expiry date; `getSubject` throws outside |
| `JWTAuthorizationFilter.BearerToken` | src/main/java/com/supportportal/filter/JWTAuthorizationFilter.java:44 | the token is the header with the prefix removed: prefix followed by token gives back the header |
| `JWTAuthorizationFilter.DoFilterInternal` | src/main/java/com/supportportal/filter/JWTAuthorizationFilter.java:30-58 | OPTIONS in any case sets 200, keeps the context and skips the chain; no bearer header keeps the context and calls the chain once; an exception from `getSubject`, from `isTokenValid`, or from `getAuthorities` on the path that calls it, leaves the filter before the chain; a valid token with an empty context sets an authenticated authentication for the subject, with no credentials and the claim's authorities; an invalid token or a populated context clears it; every normal pass calls the chain exactly once |
| `JWTAuthorizationFilter.OnlyTheBearerTokenIsDecoded` | src/main/java/com/supportportal/filter/JWTAuthorizationFilter.java:44-45 | the outcome depends on the provider only through its answer for the header minus the prefix |
| `JWTAuthorizationFilter.IssuedTokenAuthenticates` | src/main/java/com/supportportal/filter/JWTAuthorizationFilter.java:44-51 | with the corrected `GenerateClaimsFromUser`, a request carrying an issued token read from its issue instant up to its whole-second expiry date, with an empty context, authenticates the principal's user name with exactly its authorities and calls the chain once |
| `JWTAuthorizationFilter.RejectedTokenThrows` | src/main/java/com/supportportal/filter/JWTAuthorizationFilter.java:45 | an undecodable token, or an issued token read in a second before its issue second or after its expiry second, makes the filter throw `JWTVerificationException` |
| `JWTAuthorizationFilter.JustExpiredTokenClearsContext` | src/main/java/com/supportportal/filter/JWTAuthorizationFilter.java:45-56 | in the 1000 ms after an issued token's whole-second expiry date, `getSubject` still succeeds but `isTokenValid` is false, so the filter clears the context and calls the chain once, without throwing |
| `JWTAuthorizationFilter.LowerCaseOptionsShortCircuits` | src/main/java/com/supportportal/filter/JWTAuthorizationFilter.java:32-35 | a lower-case "options" request is short-circuited like "OPTIONS" |

## Findings

| source | as written | input that shows it | evidently intended | confidence | as-written member | corrected member |
|---|---|---|---|---|---|---|
| src/main/java/com/supportportal/utility/JWTTokenProvider.java:98-105 | each authority is mapped to the Boolean that `List.add` returns, and that list is copied into a `String[]`, which throws `ArrayStoreException` | a principal with authorities `["user:read"]` | the authorities claim is the principal's authority strings, in order | not executed; high (Java array-store rule) | `JWTTokenProvider.GenerateClaimsFromUserAsWritten`, with `JWTTokenProvider.ClaimsAsWrittenFailForOneAuthority` and `JWTTokenProvider.GenerateJWTTokenAsWritten` | `JWTTokenProvider.GenerateClaimsFromUser`, used by `JWTTokenProvider.GenerateJWTToken`, with the authorities round trip in `JWTTokenProvider.IssuedTokenIsAccepted` |

## Left out

- HS512 signing and the compact serialisation are done by the auth0 library.
  They are the abstract `Decoder`. The library's date checks are modelled in
  `Verify` with no leeway, its default.
- The key derivation differs between signing and verifying. Signing uses
  `secret.getBytes()` and verifying uses `HMAC512(secret)`. The model has one
  decoder for the configured secret.
- Each provider call reads its own `new Date()`. The model uses one clock
  reading for the whole request.
- `getAuthentication` attaches `WebAuthenticationDetails` from the request.
  Request details are not modelled.
- The tracker is modelled sequentially. Guava's locking and the lost update of
  the get-then-put in `addUserToLoginAttempts` are concurrency matters.
- LoginAttempt.Evict: Guava splits `maximumSize(100)` over four segments of
  25 entries and evicts, approximately least recently used, from a full
  segment even while the whole map is under 100. Segments depend on
  `String.hashCode` and are not modelled, so the model allows any eviction
  that keeps the cap and spares the entry just written. It therefore does
  not promise that a cache with room evicts nobody.
- Guava's access-time bookkeeping does not affect expiry after write, and is
  not modelled.
- LoginAttempt.AddUserToLoginAttempts: the count is unbounded. Java's
  `Integer` would wrap after 2^31 − 1 increments, none 15 minutes or more
  after the one before.
- The `ExecutionException` branches of `LoginAttempt` cannot be reached,
  because the loader never throws.
- Messages built from `User.toString` are not modelled. `UserNameExistException`
  and `EmailExistException` carry no message. `User.toString` is not
  modelled.
- JPA would throw on several rows with one name. The finders return the first
  match instead. The lemmas that need one owner per name assume unique names
  and e-mails.
- Only the content-type guard of `saveProfileImage` is modelled. Creating the
  folder, copying the file, building the URL and saving are file-system and
  servlet work.
- `register`, `addNewUser`, `updateUser`, `resetPassword`, `deleteUser` and
  `updateProfileImage` are CRUD glue around the modelled checks. Three
  oddities in them are recorded here but not modelled:
  - `updateUser` builds a new object and discards it (UserServiceImpl.java:166-174);
  - `resetPassword` does the same (UserServiceImpl.java:216-218);
  - the `!= null` branch of `addNewUser` is dead (UserServiceImpl.java:134-137).
- BCrypt, random ids and passwords, e-mail, the remote image fetch, the entry
  point's JSON body and the security configuration involve I/O, randomness or
  framework wiring.
- `Role`'s authority lists come from a constant class outside this model.
  Each role is modelled by its name only.
- `String.toUpperCase` and `equalsIgnoreCase` are exact only for characters
  whose case mapping reaches ASCII. Every other character is kept. This never
  changes a comparison with the ASCII role names or with "OPTIONS". The
  default locale is assumed not to be Turkish.
- The success listener tests for a `domain.User` principal. After a login
  through `loadUserByUsername`, Spring's principal is the returned
  `UserPrincipal`. `User` and `UserPrincipal` are not modelled beyond their
  fields, so the listener is modelled as written.

=== FILE: authentication_listeners.dfy ===
/** `AuthenticationFailureListener` and `AuthenticationSuccessListener`: Spring
    authentication events turned into `LoginAttempt` transitions. */
module AuthenticationListeners {
  import opened LoginAttempt
  import opened Domain

  /** The runtime class of `event.getAuthentication().getPrincipal()`. */
  datatype Principal =
    | StringPrincipal(name: string)
    | UserObject(user: User)
    | OtherPrincipal

  /** `onAuthenticationFailure` for an `AuthenticationFailureBadCredentialsEvent`:
      a String principal is counted as one more failed attempt. */
  ghost function OnAuthenticationFailure(c: Cache, principal: Principal, now: int): (r: Cache)
    ensures principal.StringPrincipal? ==>
      Count(r, principal.name, now) == Count(c, principal.name, now) + 1
    ensures principal.StringPrincipal? ==> forall k :: k in r.entries && k != principal.name ==>
      k in c.entries && r.entries[k] == c.entries[k]
    ensures !principal.StringPrincipal? ==> r == c
  {
    match principal
    case StringPrincipal(name) => AddUserToLoginAttempts(c, name, now)
    case _ => c
  }

  /** `onAuthenticationSuccess` for an `AuthenticationSuccessEvent`: a `User`
      principal is counted as one more attempt too; the count is never reset. */
  ghost function OnAuthenticationSuccess(c: Cache, principal: Principal, now: int): (r: Cache)
    ensures principal.UserObject? ==>
      Count(r, principal.user.userName, now) == Count(c, principal.user.userName, now) + 1
    ensures principal.UserObject? ==> forall k :: k in r.entries && k != principal.user.userName ==>
      k in c.entries && r.entries[k] == c.entries[k]
    ensures !principal.UserObject? ==> r == c
  {
    match principal
    case UserObject(user) => AddUserToLoginAttempts(c, user.userName, now)
    case _ => c
  }

  /** A success event raises no count but the user's own: at every time each
      other count reads as before, or as 0 once its entry is evicted. */
  lemma SuccessCountsOnlyTheUser(c: Cache, principal: Principal, now: int)
    ensures forall k, t :: (principal.UserObject? ==> k != principal.user.userName) ==>
      var after := Count(OnAuthenticationSuccess(c, principal, now), k, t);
      after == Count(c, k, t) || after == 0
  { }

  /** Failure events for one principal at the given times. */
  ghost function ReplayFailures(c: Cache, principal: Principal, times: seq<int>): Cache
    decreases |times|
  {
    if |times| == 0 then c
    else ReplayFailures(OnAuthenticationFailure(c, principal, times[0]), principal, times[1..])
  }

  /** Replaying bad-credential events for a user name is replaying adds for it. */
  lemma {:induction false} ReplayFailuresIsAdding(c: Cache, name: string, times: seq<int>)
    ensures ReplayFailures(c, StringPrincipal(name), times) == AddRepeatedly(c, name, times)
    decreases |times|
  {
    if |times| > 0 {
      ReplayFailuresIsAdding(AddUserToLoginAttempts(c, name, times[0]), name, times[1..]);
    }
  }

  /** Five bad-credential events at steady times for a user name with no count
      put it over the limit. */
  lemma FiveFailuresExceed(c: Cache, name: string, times: seq<int>)
    requires |times| == 5 && Steady(times)
    requires Count(c, name, times[0]) == 0
    ensures HasExceededMaxAttempts(ReplayFailures(c, StringPrincipal(name), times), name, times[4]).value
  {
    ReplayFailuresIsAdding(c, name, times);
    FifthAttemptExceeds(c, name, times);
  }
}

=== FILE: domain.dfy ===
/** The records the authentication core reads: a stored user, the principal
    built from it at login, and the five roles. */
module Domain {
  import opened JavaLang

  /** Dates are milliseconds since the epoch, as `java.util.Date` holds them. */
  type Millis = int

  /** The stored user, restricted to the fields the core reads or writes. */
  datatype User = User(
    id: int,
    userName: string,
    email: string,
    notLocked: bool,
    lastLoginDate: Nullable<Millis>,
    lastLoginDateDisplay: Nullable<Millis>,
    authorities: seq<string>)

  /** `UserPrincipal`, the `UserDetails` view of a user handed to Spring Security. */
  datatype UserPrincipal = UserPrincipal(user: User)
  {
    function Username(): string { user.userName }
    function Authorities(): seq<string> { user.authorities }
  }

  /** The `Role` enumeration; its authority lists live in a constant class outside this model. */
  datatype Role = RoleUser | RoleHr | RoleManager | RoleAdmin | RoleSuperAdmin
  {
    /** `Role.name()`, the constant's identifier. */
    function Name(): string
    {
      match this
      case RoleUser => "ROLE_USER"
      case RoleHr => "ROLE_HR"
      case RoleManager => "ROLE_MANAGER"
      case RoleAdmin => "ROLE_ADMIN"
      case RoleSuperAdmin => "ROLE_SUPER_ADMIN"
    }
  }
}

=== FILE: java_lang.dfy ===
/** The few pieces of Java semantics the authentication core relies on:
    `null`, the exceptions it throws, and the string predicates it calls
    (`String.equalsIgnoreCase`, `String.toUpperCase`, `StringUtils.isBlank`,
    `StringUtils.isNotEmpty`, Spring's `StringUtils.hasText`). */
module JavaLang {

  /** A Java reference that may be `null`. */
  datatype Nullable<+T> = Null | NonNull(value: T)

  /** The exceptions the modelled code throws or lets escape. */
  datatype Exception =
    | UsernameNotFoundException(message: string)
    | UserNameExistException
    | EmailExistException
    | NotAnImageFileException(message: string)
    | IllegalArgumentException
    | NullPointerException
    | JWTVerificationException
    | ArrayStoreException

  /** How a Java call completes: normally with a value, or abruptly with an exception. */
  datatype Completion<+T> = Normal(value: T) | Abrupt(exception: Exception)

  /** What string concatenation writes for a possibly-null string. */
  function NullToString(s: Nullable<string>): string
  {
    if s.Null? then "null" else s.value
  }

  /** `Character.isWhitespace`: the Unicode space, line and paragraph separators
      other than the non-breaking ones, plus the ASCII and information-separator controls. */
  predicate IsWhitespace(c: char)
  {
    || c == ' ' || c == '\t' || c == '\n' || c == '\U{B}' || c == '\U{C}' || c == '\r'
    || ('\U{1C}' <= c <= '\U{1F}')
    || c == '\U{1680}'
    || ('\U{2000}' <= c <= '\U{2006}') || ('\U{2008}' <= c <= '\U{200A}')
    || c == '\U{2028}' || c == '\U{2029}' || c == '\U{205F}' || c == '\U{3000}'
  }

  /** Commons-lang `StringUtils.isBlank`: null, empty, or whitespace only. */
  predicate IsBlank(s: Nullable<string>)
  {
    s.Null? || forall i :: 0 <= i < |s.value| ==> IsWhitespace(s.value[i])
  }

  /** Commons-lang `StringUtils.isNotEmpty`: not null and at least one character. */
  predicate IsNotEmpty(s: Nullable<string>)
  {
    s.NonNull? && |s.value| > 0
  }

  /** Spring's `StringUtils.hasText`: some character is not whitespace. */
  predicate HasText(s: string)
  {
    exists i :: 0 <= i < |s| && !IsWhitespace(s[i])
  }

  /** `Character.toUpperCase`, exact on every character whose upper case is ASCII
      (a-z, dotless i, long s); every other character is kept, which never changes
      whether the result equals an ASCII constant. */
  function UpperChar(c: char): char
  {
    if 'a' <= c <= 'z' then (c as int - 'a' as int + 'A' as int) as char
    else if c == '\U{131}' then 'I'
    else if c == '\U{17F}' then 'S'
    else c
  }

  /** `Character.toLowerCase`, exact on every character whose lower case is ASCII
      (A-Z, dotted capital I, Kelvin sign); every other character is kept. */
  function LowerChar(c: char): char
  {
    if 'A' <= c <= 'Z' then (c as int - 'A' as int + 'a' as int) as char
    else if c == '\U{130}' then 'i'
    else if c == '\U{212A}' then 'k'
    else c
  }

  /** `String.toUpperCase`, character by character. */
  function ToUpper(s: string): (r: string)
    ensures |r| == |s|
  {
    seq(|s|, i requires 0 <= i < |s| => UpperChar(s[i]))
  }

  /** `String.toLowerCase`, character by character. */
  function ToLower(s: string): (r: string)
    ensures |r| == |s|
  {
    seq(|s|, i requires 0 <= i < |s| => LowerChar(s[i]))
  }

  /** The per-character test of `String.regionMatches(true, ...)`. */
  predicate CharsEqualIgnoreCase(a: char, b: char)
  {
    a == b || UpperChar(a) == UpperChar(b) || LowerChar(UpperChar(a)) == LowerChar(UpperChar(b))
  }

  /** `String.equalsIgnoreCase` with a non-null argument. */
  predicate EqualsIgnoreCase(a: string, b: string)
  {
    |a| == |b| && forall i :: 0 <= i < |a| ==> CharsEqualIgnoreCase(a[i], b[i])
  }
}

=== FILE: jwt_authorization_filter.dfy ===
/** `JWTAuthorizationFilter.doFilterInternal` as one pass from the request,
    the security context's current authentication and the token provider's
    answers to the status it sets, the authentication it leaves in the
    context, and how often it calls the rest of the filter chain. An exception
    thrown by the provider leaves the filter before the chain is reached. */
module JWTAuthorizationFilter {
  import opened JavaLang
  import opened Domain
  import opened JWTTokenProvider

  const OptionsHttpMethod: string := "OPTIONS"
  /** The scheme prefix of the `Authorization` header. */
  const TokenPrefix: string := "Bearer "
  const HttpOk: int := 200

  /** The parts of a request the filter reads. */
  datatype Request = Request(httpMethod: string, authorization: Nullable<string>)

  /** What one pass leaves behind: the status it set (null if untouched), the
      context's authentication (null once cleared) and the chain calls made. */
  datatype Pass = Pass(status: Nullable<int>, authentication: Nullable<Authentication>, chainCalls: nat)

  /** A header the filter treats as carrying a token. */
  predicate HasBearerToken(request: Request)
  {
    request.authorization.NonNull? && TokenPrefix <= request.authorization.value
  }

  /** `authorizationHeader.substring(TOKEN_PREFIX.length())`. */
  function BearerToken(header: string): (token: string)
    requires TokenPrefix <= header
    ensures TokenPrefix + token == header
    ensures |token| == |header| - |TokenPrefix|
  {
    header[|TokenPrefix|..]
  }

  /** The token of a request that carries one. */
  function TokenOf(request: Request): string
    requires HasBearerToken(request)
  {
    BearerToken(request.authorization.value)
  }

  function DoFilterInternal(request: Request, context: Nullable<Authentication>, decode: Decoder, now: Millis): (r: Completion<Pass>)
    ensures EqualsIgnoreCase(request.httpMethod, OptionsHttpMethod) ==>
      r == Normal(Pass(NonNull(HttpOk), context, 0))
    ensures !EqualsIgnoreCase(request.httpMethod, OptionsHttpMethod) && !HasBearerToken(request) ==>
      r == Normal(Pass(Null, context, 1))
    ensures !EqualsIgnoreCase(request.httpMethod, OptionsHttpMethod) && HasBearerToken(request) ==>
      var token := TokenOf(request);
      var subject := GetSubject(decode, token, now);
      && (subject.Abrupt? ==> r == Abrupt(JWTVerificationException))
      && (r.Normal? ==> subject.Normal? && r.value.status.Null? && r.value.chainCalls == 1)
      && (subject.Normal? && IsTokenValid(decode, subject.value, token, now).Abrupt? ==>
            r == Abrupt(IsTokenValid(decode, subject.value, token, now).exception))
      && (subject.Normal? && context.Null? && IsTokenValid(decode, subject.value, token, now) == Normal(true)
          && GetAuthorities(decode, token, now).Abrupt? ==>
            r == Abrupt(GetAuthorities(decode, token, now).exception))
      && (subject.Normal? && IsTokenValid(decode, subject.value, token, now).Normal?
          && (context.NonNull? || !IsTokenValid(decode, subject.value, token, now).value) ==>
            r == Normal(Pass(Null, Null, 1)))
      && (r.Normal? && r.value.authentication.NonNull? ==>
            && context.Null?
            && IsTokenValid(decode, subject.value, token, now) == Normal(true)
            && r.value.authentication.value.principal == subject.value
            && IsNotEmpty(r.value.authentication.value.principal)
            && r.value.authentication.value.credentials.Null?
            && r.value.authentication.value.authenticated
            && GetAuthorities(decode, token, now).Normal?
            && AuthorityTexts(r.value.authentication.value.authorities) ==
                 Verify(decode, token, now).value.authorities.value)
      && (subject.Normal? && context.Null? && IsTokenValid(decode, subject.value, token, now) == Normal(true)
          && GetAuthorities(decode, token, now).Normal? ==>
            r.Normal? && r.value.authentication.NonNull?)
  {
    if EqualsIgnoreCase(request.httpMethod, OptionsHttpMethod) then
      Normal(Pass(NonNull(HttpOk), context, 0))
    else if !HasBearerToken(request) then
      Normal(Pass(Null, context, 1))
    else
      var token := TokenOf(request);
      match GetSubject(decode, token, now)
      case Abrupt(e) => Abrupt(e)
      case Normal(userName) =>
        match IsTokenValid(decode, userName, token, now)
        case Abrupt(e) => Abrupt(e)
        case Normal(valid) =>
          if valid && context.Null? then
            match GetAuthorities(decode, token, now)
            case Abrupt(e) => Abrupt(e)
            case Normal(authorities) =>
              Normal(Pass(Null, NonNull(GetAuthentication(userName, authorities)), 1))
          else
            Normal(Pass(Null, Null, 1))
  }

  /** The provider only ever sees the header with the prefix removed: two
      decoders that agree on that string give the same pass. */
  lemma OnlyTheBearerTokenIsDecoded(request: Request, context: Nullable<Authentication>,
                                    d1: Decoder, d2: Decoder, now: Millis)
    requires HasBearerToken(request)
    requires d1(TokenOf(request)) == d2(TokenOf(request))
    ensures DoFilterInternal(request, context, d1, now) == DoFilterInternal(request, context, d2, now)
  { }

  /** A request bearing an issued token for a user with a non-empty name and
      non-blank authorities, read from its issue instant up to its whole-second
      expiry date, authenticates that user with exactly those authorities, and
      the chain runs once. */
  lemma IssuedTokenAuthenticates(request: Request, decode: Decoder, userPrincipal: UserPrincipal,
                                 issuedAt: Millis, now: Millis)
    requires !EqualsIgnoreCase(request.httpMethod, OptionsHttpMethod)
    requires HasBearerToken(request)
    requires decode(TokenOf(request)) == NonNull(GenerateJWTToken(userPrincipal, issuedAt))
    requires issuedAt <= now <= WholeSeconds(issuedAt + ExpirationTime)
    requires userPrincipal.Username() != "" && AuthoritiesHaveText(userPrincipal)
    ensures DoFilterInternal(request, Null, decode, now).Normal?
    ensures var pass := DoFilterInternal(request, Null, decode, now).value;
      && pass.chainCalls == 1
      && pass.authentication.NonNull?
      && pass.authentication.value.principal == NonNull(userPrincipal.Username())
      && AuthorityTexts(pass.authentication.value.authorities) == userPrincipal.Authorities()
  { }

  /** A token that does not decode under the secret, or an issued token read
      in a second before its issue second or after its expiry second, makes
      the filter throw before the chain is reached. */
  lemma RejectedTokenThrows(request: Request, context: Nullable<Authentication>, decode: Decoder,
                            userPrincipal: UserPrincipal, issuedAt: Millis, now: Millis)
    requires !EqualsIgnoreCase(request.httpMethod, OptionsHttpMethod)
    requires HasBearerToken(request)
    requires decode(TokenOf(request)).Null? ||
      (decode(TokenOf(request)) == NonNull(GenerateJWTToken(userPrincipal, issuedAt)) && !(WholeSeconds(issuedAt) <= WholeSeconds(now) <= WholeSeconds(issuedAt + ExpirationTime)))
    ensures DoFilterInternal(request, context, decode, now) == Abrupt(JWTVerificationException)
  { }

  /** In the second after an issued token's expiry date the verifier, on its
      whole-second clock, still accepts it, but `isTokenExpired` does not: the
      filter neither throws nor authenticates; it clears the context and calls
      the chain once. */
  lemma JustExpiredTokenClearsContext(request: Request, context: Nullable<Authentication>, decode: Decoder,
                                      userPrincipal: UserPrincipal, issuedAt: Millis, now: Millis)
    requires !EqualsIgnoreCase(request.httpMethod, OptionsHttpMethod)
    requires HasBearerToken(request)
    requires decode(TokenOf(request)) == NonNull(GenerateJWTToken(userPrincipal, issuedAt))
    requires 0 <= now
    requires WholeSeconds(issuedAt + ExpirationTime) < now < WholeSeconds(issuedAt + ExpirationTime) + 1000
    ensures DoFilterInternal(request, context, decode, now) == Normal(Pass(Null, Null, 1))
  { }

  /** Any spelling of OPTIONS that `equalsIgnoreCase` accepts, such as "options". */
  lemma LowerCaseOptionsShortCircuits(context: Nullable<Authentication>, header: Nullable<string>, decode: Decoder, now: Millis)
    ensures DoFilterInternal(Request("options", header), context, decode, now) == Normal(Pass(NonNull(HttpOk), context, 0))
  { }
}

=== FILE: jwt_token_provider.dfy ===
/** `JWTTokenProvider`: the registered claims of an issued token (issuer,
    audience, subject, issued-at, expiry, after section 4.1 of RFC 7519), the
    verifier's issuer and expiry requirements, and the reading of subject,
    validity and authorities back out of a token.

    A token is a string; the HS512 signature check and the decoding of the
    compact serialisation are the abstract `Decoder`, which yields the claims
    of a well-formed, correctly signed token and null for anything else. The
    verifier built by `getJWTVerifier` adds what this code asks of it, the
    issuer, and the date checks the library always makes: the token has not
    expired, and neither its issued-at nor its not-before date lies after
    `now`. The library writes dates in whole seconds (NumericDate, section 2
    of RFC 7519) and cuts its own clock to whole seconds before these checks;
    `isTokenExpired` compares with the exact clock. Every call of one request
    uses one clock reading `now`. */
module JWTTokenProvider {
  import opened JavaLang
  import opened Domain

  /** The issuer written into every token and required by the verifier. */
  const GetArraysLlc: string := "Get Arrays, LLC"
  /** The audience written into every token. */
  const GetArraysAdministration: string := "User Management Portal"
  /** Token lifetime in milliseconds (five days). */
  const ExpirationTime: int := 432_000_000

  /** The claims of a token; dates are milliseconds since the epoch. */
  datatype Claims = Claims(
    issuer: Nullable<string>,
    audience: seq<string>,
    issuedAt: Nullable<Millis>,
    subject: Nullable<string>,
    authorities: Nullable<seq<string>>,
    expiresAt: Nullable<Millis>,
    notBefore: Nullable<Millis>)

  /** Signature check and decoding under the configured secret. */
  type Decoder = string -> Nullable<Claims>

  datatype GrantedAuthority = SimpleGrantedAuthority(authority: string)

  /** A `UsernamePasswordAuthenticationToken`; `authenticated` tells the
      three-argument constructor (true) from the two-argument one (false). */
  datatype Authentication = UsernamePasswordAuthenticationToken(
    principal: Nullable<string>,
    credentials: Nullable<string>,
    authorities: seq<GrantedAuthority>,
    authenticated: bool)

  /** `generateClaimsFromUser` as written: each authority is mapped to the
      result of `List.add`, which is `true`, and the resulting list of Booleans
      is copied into a `String[]`, which throws for any element. */
  function GenerateClaimsFromUserAsWritten(userPrincipal: UserPrincipal): (r: Completion<seq<string>>)
    ensures r.Normal? <==> |userPrincipal.Authorities()| == 0
  {
    var added := seq(|userPrincipal.Authorities()|, i requires 0 <= i < |userPrincipal.Authorities()| => true);
    if |added| == 0 then Normal([]) else Abrupt(ArrayStoreException)
  }

  /** The authority claim of a user that has a single authority. */
  lemma ClaimsAsWrittenFailForOneAuthority(u: User)
    requires u.authorities == ["user:read"]
    ensures GenerateClaimsFromUserAsWritten(UserPrincipal(u)) == Abrupt(ArrayStoreException)
  { }

  /** `Date.getTime() / 1000 * 1000`: milliseconds cut to whole seconds, with
      Java's division, which truncates toward zero. */
  function WholeSeconds(t: Millis): (r: Millis)
    ensures r % 1000 == 0
    ensures t % 1000 == 0 ==> r == t
    ensures 0 <= t ==> 0 <= r <= t < r + 1000
    ensures t < 0 ==> r - 1000 < t <= r <= 0
  {
    if 0 <= t then t / 1000 * 1000 else -((-t) / 1000 * 1000)
  }

  /** `generateClaimsFromUser` as intended: the principal's authority strings, in order. */
  function GenerateClaimsFromUser(userPrincipal: UserPrincipal): seq<string>
  {
    userPrincipal.Authorities()
  }

  /** The library's expiry test: the expiry date lies before `now` cut to whole seconds. */
  predicate ExpiredAt(c: Claims, now: Millis)
  {
    c.expiresAt.NonNull? && c.expiresAt.value < WholeSeconds(now)
  }

  /** The library's issued-at and not-before tests: either date lies after
      `now` cut to whole seconds. */
  predicate NotYetValidAt(c: Claims, now: Millis)
  {
    (c.issuedAt.NonNull? && WholeSeconds(now) < c.issuedAt.value)
    || (c.notBefore.NonNull? && WholeSeconds(now) < c.notBefore.value)
  }

  /** `generateJWTToken` with the corrected `generateClaimsFromUser`: the
      claims signed into the token issued at `now`. It names the principal,
      carries its authorities in order, and its dates, in whole seconds, admit
      it at exactly the instants whose second lies from the issue second to the
      expiry second. */
  function GenerateJWTToken(userPrincipal: UserPrincipal, now: Millis): (c: Claims)
    ensures c.issuer == NonNull(GetArraysLlc)
    ensures c.subject == NonNull(userPrincipal.Username())
    ensures c.authorities == NonNull(userPrincipal.Authorities())
    ensures c.issuedAt == NonNull(WholeSeconds(now))
    ensures c.expiresAt == NonNull(WholeSeconds(now + ExpirationTime))
    ensures forall t :: !ExpiredAt(c, t) && !NotYetValidAt(c, t) <==>
      WholeSeconds(now) <= WholeSeconds(t) <= WholeSeconds(now + ExpirationTime)
  {
    Claims(
      issuer := NonNull(GetArraysLlc),
      audience := [GetArraysAdministration],
      issuedAt := NonNull(WholeSeconds(now)),
      subject := NonNull(userPrincipal.Username()),
      authorities := NonNull(GenerateClaimsFromUser(userPrincipal)),
      expiresAt := NonNull(WholeSeconds(now + ExpirationTime)),
      notBefore := Null)
  }

  /** `generateJWTToken` as written: the claim array comes from the failing
      `generateClaimsFromUser`, so only a principal without authorities gets a
      token, and then the same one as the corrected version. */
  function GenerateJWTTokenAsWritten(userPrincipal: UserPrincipal, now: Millis): (r: Completion<Claims>)
    ensures r.Normal? <==> |userPrincipal.Authorities()| == 0
    ensures r.Abrupt? ==> r.exception == ArrayStoreException
    ensures r.Normal? ==> r.value == GenerateJWTToken(userPrincipal, now)
  {
    match GenerateClaimsFromUserAsWritten(userPrincipal)
    case Abrupt(e) => Abrupt(e)
    case Normal(claims) => Normal(GenerateJWTToken(userPrincipal, now).(authorities := NonNull(claims)))
  }

  /** `getJWTVerifier().verify(token)` at `now`. */
  function Verify(decode: Decoder, token: string, now: Millis): (r: Completion<Claims>)
    ensures r.Normal? ==> decode(token) == NonNull(r.value)
    ensures r.Normal? ==>
      r.value.issuer == NonNull(GetArraysLlc) && !ExpiredAt(r.value, now) && !NotYetValidAt(r.value, now)
    ensures decode(token).Null? ==> r == Abrupt(JWTVerificationException)
    ensures decode(token).NonNull? && decode(token).value.issuer != NonNull(GetArraysLlc) ==>
      r == Abrupt(JWTVerificationException)
    ensures (decode(token).NonNull? && decode(token).value.issuer == NonNull(GetArraysLlc)
             && !ExpiredAt(decode(token).value, now) && !NotYetValidAt(decode(token).value, now)) ==>
      r == Normal(decode(token).value)
    ensures r.Abrupt? ==> r.exception == JWTVerificationException
  {
    match decode(token)
    case Null => Abrupt(JWTVerificationException)
    case NonNull(c) =>
      if c.issuer != NonNull(GetArraysLlc) || ExpiredAt(c, now) || NotYetValidAt(c, now) then
        Abrupt(JWTVerificationException)
      else Normal(c)
  }

  /** `getSubject`. */
  function GetSubject(decode: Decoder, token: string, now: Millis): (r: Completion<Nullable<string>>)
    ensures r.Normal? <==> Verify(decode, token, now).Normal?
    ensures r.Normal? ==> r.value == Verify(decode, token, now).value.subject
    ensures r.Abrupt? ==> r.exception == JWTVerificationException
  {
    match Verify(decode, token, now)
    case Abrupt(e) => Abrupt(e)
    case Normal(c) => Normal(c.subject)
  }

  /** `isTokenExpired`: the verified expiry date is strictly before `now`; a
      token without one makes `getExpiresAt().before` dereference null. */
  function IsTokenExpired(decode: Decoder, token: string, now: Millis): (r: Completion<bool>)
    ensures r.Normal? <==> Verify(decode, token, now).Normal? && Verify(decode, token, now).value.expiresAt.NonNull?
    ensures r.Normal? ==> (r.value <==> Verify(decode, token, now).value.expiresAt.value < now)
    ensures Verify(decode, token, now).Normal? && r.Abrupt? ==> r.exception == NullPointerException
    ensures Verify(decode, token, now).Abrupt? ==> r == Abrupt(JWTVerificationException)
  {
    match Verify(decode, token, now)
    case Abrupt(e) => Abrupt(e)
    case Normal(c) =>
      if c.expiresAt.Null? then Abrupt(NullPointerException) else Normal(c.expiresAt.value < now)
  }

  /** `isTokenValid`: a non-empty user name and a token that is not expired;
      the token is not examined when the name is empty. */
  function IsTokenValid(decode: Decoder, userName: Nullable<string>, token: string, now: Millis): (r: Completion<bool>)
    ensures !IsNotEmpty(userName) ==> r == Normal(false)
    ensures r == Normal(true) <==>
      IsNotEmpty(userName) && Verify(decode, token, now).Normal?
      && Verify(decode, token, now).value.expiresAt.NonNull?
      && now <= Verify(decode, token, now).value.expiresAt.value
    ensures IsNotEmpty(userName) ==> (r.Abrupt? <==> IsTokenExpired(decode, token, now).Abrupt?)
    ensures IsNotEmpty(userName) && IsTokenExpired(decode, token, now).Abrupt? ==>
      r == Abrupt(IsTokenExpired(decode, token, now).exception)
  {
    if !IsNotEmpty(userName) then Normal(false)
    else
      match IsTokenExpired(decode, token, now)
      case Abrupt(e) => Abrupt(e)
      case Normal(expired) => Normal(!expired)
  }

  /** Once the verifier has accepted a token at `now`, the explicit expiry test
      answers, or fails on a token without an expiry date; it reports the
      token expired only within the second after its expiry date, which the
      verifier's whole-second clock still accepts. */
  lemma ExpiryTestAfterVerify(decode: Decoder, token: string, now: Millis)
    requires Verify(decode, token, now).Normal?
    ensures IsTokenExpired(decode, token, now).Normal? ||
            IsTokenExpired(decode, token, now) == Abrupt(NullPointerException)
    ensures IsTokenExpired(decode, token, now) == Normal(true) ==>
      var expiresAt := Verify(decode, token, now).value.expiresAt.value;
      expiresAt < now < expiresAt + 1000
  { }

  /** Some authority string is empty or whitespace, which `SimpleGrantedAuthority` refuses. */
  predicate SomeWithoutText(claims: seq<string>)
  {
    exists i :: 0 <= i < |claims| && !HasText(claims[i])
  }

  /** `getAuthorities`: one `SimpleGrantedAuthority` per string of the
      authorities claim, in order. A missing claim is dereferenced as null. */
  function GetAuthorities(decode: Decoder, token: string, now: Millis): (r: Completion<seq<GrantedAuthority>>)
    ensures r.Normal? <==>
      Verify(decode, token, now).Normal?
      && Verify(decode, token, now).value.authorities.NonNull?
      && !SomeWithoutText(Verify(decode, token, now).value.authorities.value)
    ensures r.Normal? ==>
      var claims := Verify(decode, token, now).value.authorities.value;
      |r.value| == |claims| && forall i :: 0 <= i < |claims| ==> r.value[i].authority == claims[i]
    ensures Verify(decode, token, now).Abrupt? ==> r == Abrupt(JWTVerificationException)
    ensures Verify(decode, token, now).Normal? && Verify(decode, token, now).value.authorities.Null? ==>
      r == Abrupt(NullPointerException)
    ensures (Verify(decode, token, now).Normal? && Verify(decode, token, now).value.authorities.NonNull?
             && SomeWithoutText(Verify(decode, token, now).value.authorities.value)) ==>
      r == Abrupt(IllegalArgumentException)
  {
    match Verify(decode, token, now)
    case Abrupt(e) => Abrupt(e)
    case Normal(c) =>
      if c.authorities.Null? then Abrupt(NullPointerException)
      else if SomeWithoutText(c.authorities.value) then Abrupt(IllegalArgumentException)
      else
        var claims := c.authorities.value;
        Normal(seq(|claims|, i requires 0 <= i < |claims| => SimpleGrantedAuthority(claims[i])))
  }

  /** `getAuthentication`: an authenticated token for the user name, with no
      credentials and the given authorities in order. */
  function GetAuthentication(userName: Nullable<string>, authorities: seq<GrantedAuthority>): (a: Authentication)
    ensures a.authenticated
    ensures a.principal == userName && a.credentials.Null?
    ensures a.authorities == authorities
  {
    UsernamePasswordAuthenticationToken(userName, Null, authorities, true)
  }

  /** The authority strings carried by an authentication. */
  function AuthorityTexts(authorities: seq<GrantedAuthority>): (r: seq<string>)
    ensures |r| == |authorities|
  {
    seq(|authorities|, i requires 0 <= i < |authorities| => authorities[i].authority)
  }

  /** Every authority of the principal is a non-blank string. */
  predicate AuthoritiesHaveText(userPrincipal: UserPrincipal)
  {
    !SomeWithoutText(userPrincipal.Authorities())
  }

  /** An issued token, read back from its issue instant until it expires,
      passes the verifier and yields the principal's user name and, in order,
      its authorities; `isTokenValid` holds until the whole-second expiry date. */
  lemma IssuedTokenIsAccepted(decode: Decoder, token: string, userPrincipal: UserPrincipal, issuedAt: Millis, now: Millis)
    requires decode(token) == NonNull(GenerateJWTToken(userPrincipal, issuedAt))
    requires issuedAt <= now <= issuedAt + ExpirationTime
    ensures Verify(decode, token, now) == Normal(GenerateJWTToken(userPrincipal, issuedAt))
    ensures Verify(decode, token, now).value.issuer == NonNull(GetArraysLlc)
    ensures Verify(decode, token, now).value.audience == [GetArraysAdministration]
    ensures Verify(decode, token, now).value.issuedAt == NonNull(WholeSeconds(issuedAt))
    ensures Verify(decode, token, now).value.expiresAt == NonNull(WholeSeconds(issuedAt + ExpirationTime))
    ensures GetSubject(decode, token, now) == Normal(NonNull(userPrincipal.Username()))
    ensures IsTokenValid(decode, NonNull(userPrincipal.Username()), token, now) ==
      Normal(userPrincipal.Username() != "" && now <= WholeSeconds(issuedAt + ExpirationTime))
    ensures AuthoritiesHaveText(userPrincipal) ==>
      GetAuthorities(decode, token, now).Normal?
      && AuthorityTexts(GetAuthorities(decode, token, now).value) == userPrincipal.Authorities()
  { }

  /** An issued token is accepted by the verifier exactly while the whole
      second of `now` lies from the issue second to the expiry second; after
      the epoch, that is from the issue second up to the end of the expiry
      second. Outside it `getSubject` throws. */
  lemma IssuedTokenExpires(decode: Decoder, token: string, userPrincipal: UserPrincipal, issuedAt: Millis, now: Millis)
    requires decode(token) == NonNull(GenerateJWTToken(userPrincipal, issuedAt))
    ensures Verify(decode, token, now).Normal? <==>
      WholeSeconds(issuedAt) <= WholeSeconds(now) <= WholeSeconds(issuedAt + ExpirationTime)
    ensures 0 <= now ==> (Verify(decode, token, now).Normal? <==>
      WholeSeconds(issuedAt) <= now < WholeSeconds(issuedAt + ExpirationTime) + 1000)
    ensures Verify(decode, token, now).Abrupt? ==>
      GetSubject(decode, token, now) == Abrupt(JWTVerificationException)
  { }
}

=== FILE: login_attempt.dfy ===
/** `LoginAttempt`: a Guava `LoadingCache<String, Integer>` from user name to
    failed-login count, expiring each entry 15 minutes after its last write,
    capped at 100 entries, whose loader answers 0 for an unknown user.

    The cache is a map from user name to (count, write time) and every
    operation takes the current time `now` (milliseconds). Guava's writes first
    drop expired entries, then store, then may evict other entries so that the
    size stays within the cap; which entries are evicted is left unspecified
    (Guava evicts per segment, in an order only approximately
    least-recently-used), so the write is a ghost function whose outcome is
    chosen by `:|`. A `get` on a missing or expired key runs the
    loader and stores its 0, which is a write too. */
module LoginAttempt {

  /** A count at or above this is over the limit. */
  const MaximumNoOfAttempts: nat := 5
  /** Added to the count by every `addUserToLoginAttempts`. */
  const AttemptIncrement: nat := 1
  /** `expireAfterWrite(15, TimeUnit.MINUTES)`, in milliseconds. */
  const ExpireAfterWriteMillis: int := 15 * 60 * 1000
  /** `maximumSize(100)`. */
  const MaximumSize: nat := 100

  datatype Entry = Entry(count: nat, writtenAt: int)

  datatype Cache = Cache(entries: map<string, Entry>)

  /** A value read from the cache together with the cache after the read. */
  datatype Answer<T> = Answer(value: T, cache: Cache)

  /** An entry is visible until 15 minutes after its last write. */
  predicate Live(e: Entry, now: int)
  {
    now - e.writtenAt < ExpireAfterWriteMillis
  }

  /** The count a read at `now` returns: the stored count of a live entry, else the loader's 0. */
  function Count(c: Cache, userName: string, now: int): nat
  {
    if userName in c.entries && Live(c.entries[userName], now) then c.entries[userName].count else 0
  }

  /** The cache stays within its capacity. */
  predicate Bounded(c: Cache)
  {
    |c.entries| <= MaximumSize
  }

  /** The entries still live at `now`; Guava drops the others before a write. */
  function Purge(m: map<string, Entry>, now: int): (r: map<string, Entry>)
    ensures forall k :: k in r <==> k in m && Live(m[k], now)
    ensures forall k :: k in r ==> r[k] == m[k]
  {
    map k | k in m && Live(m[k], now) :: m[k]
  }

  /** What size-based eviction may leave of `m` when `keep` has just been
      written: entries of `m`, unchanged, at most `MaximumSize` of them, and
      `keep` among them. Guava spreads the cap over segments and may evict
      from a full segment while the whole map is under the cap, so which and
      how many other entries go is not fixed. */
  ghost predicate EvictionOf(m: map<string, Entry>, keep: string, r: map<string, Entry>)
  {
    && |r| <= MaximumSize
    && (keep in m ==> keep in r)
    && forall k :: k in r ==> k in m && r[k] == m[k]
  }

  /** Size-based eviction: some sub-map within the cap that spares `keep`. */
  ghost function Evict(m: map<string, Entry>, keep: string): (r: map<string, Entry>)
    ensures |r| <= MaximumSize
    ensures keep in m ==> keep in r && r[keep] == m[keep]
    ensures forall k :: k in r ==> k in m && r[k] == m[k]
  {
    var least: map<string, Entry> := if keep in m then map[keep := m[keep]] else map[];
    assert EvictionOf(m, keep, least);
    var r :| EvictionOf(m, keep, r);
    r
  }

  /** `put(userName, count)` at `now`. */
  ghost function Write(c: Cache, userName: string, count: nat, now: int): (r: Cache)
    ensures userName in r.entries && r.entries[userName] == Entry(count, now)
    ensures Bounded(r)
    ensures forall k :: k in r.entries && k != userName ==>
      k in c.entries && r.entries[k] == c.entries[k] && Live(c.entries[k], now)
  {
    Cache(Evict(Purge(c.entries, now)[userName := Entry(count, now)], userName))
  }

  /** `loginAttemptCache.get(userName)`: a live entry is returned as is and its
      write time is not refreshed; otherwise the loader's 0 is stored and returned. */
  ghost function Load(c: Cache, userName: string, now: int): (r: Answer<nat>)
    ensures r.value == Count(c, userName, now)
    ensures userName in c.entries && Live(c.entries[userName], now) ==> r.cache == c
    ensures !(userName in c.entries && Live(c.entries[userName], now)) ==>
      r.value == 0 && userName in r.cache.entries && r.cache.entries[userName] == Entry(0, now)
    ensures Count(r.cache, userName, now) == r.value
    ensures Bounded(r.cache) || r.cache == c
    ensures forall k :: k in r.cache.entries && k != userName ==>
      k in c.entries && r.cache.entries[k] == c.entries[k]
  {
    if userName in c.entries && Live(c.entries[userName], now) then
      Answer(c.entries[userName].count, c)
    else
      Answer(0, Write(c, userName, 0, now))
  }

  /** `evictUserFromLoginAttemptCache`: `invalidate(userName)`. */
  function EvictUserFromLoginAttemptCache(c: Cache, userName: string): (r: Cache)
    ensures userName !in r.entries
    ensures forall now :: Count(r, userName, now) == 0
    ensures forall k, now :: k != userName ==> Count(r, k, now) == Count(c, k, now)
    ensures Bounded(c) ==> Bounded(r)
  {
    Cache(c.entries - {userName})
  }

  /** `addUserToLoginAttempts`: read the count (loading 0 if absent), then
      store it plus one, which also restarts the entry's 15 minutes. */
  ghost function AddUserToLoginAttempts(c: Cache, userName: string, now: int): (r: Cache)
    ensures Count(r, userName, now) == Count(c, userName, now) + 1
    ensures userName in r.entries && r.entries[userName].writtenAt == now
    ensures Bounded(r)
    ensures forall k :: k in r.entries && k != userName ==>
      k in c.entries && r.entries[k] == c.entries[k]
  {
    var read := Load(c, userName, now);
    Write(read.cache, userName, AttemptIncrement + read.value, now)
  }

  /** `hasExceededMaxAttempts`: whether the count read at `now` reaches the limit. */
  ghost function HasExceededMaxAttempts(c: Cache, userName: string, now: int): (r: Answer<bool>)
    ensures r.value <==> Count(c, userName, now) >= MaximumNoOfAttempts
    ensures Count(c, userName, now) == 0 ==> !r.value
    ensures userName in c.entries && Live(c.entries[userName], now) ==> r.cache == c
    ensures Count(r.cache, userName, now) == Count(c, userName, now)
    ensures Bounded(c) ==> Bounded(r.cache)
    ensures forall k :: k in r.cache.entries && k != userName ==>
      k in c.entries && r.cache.entries[k] == c.entries[k]
  {
    var read := Load(c, userName, now);
    Answer(read.value >= MaximumNoOfAttempts, read.cache)
  }

  /** An add for one user never raises another user's count: at every time
      each other count reads as before, or as 0 once its entry is evicted. */
  lemma AddKeepsOrEvictsOthers(c: Cache, userName: string, now: int)
    ensures forall k, t :: k != userName ==>
      var after := Count(AddUserToLoginAttempts(c, userName, now), k, t);
      after == Count(c, k, t) || after == 0
  { }

  /** An add at `t0` is seen at any later time `t` until 15 minutes have passed
      since it, and not after: an entry not written for 15 minutes reads as 0. */
  lemma AddThenWait(c: Cache, userName: string, t0: int, t: int)
    requires t0 <= t
    ensures Count(AddUserToLoginAttempts(c, userName, t0), userName, t) ==
      if t - t0 < ExpireAfterWriteMillis then Count(c, userName, t0) + 1 else 0
  { }

  /** Reading a live entry does not restart its 15 minutes: whatever the entry
      would read later, it still reads after the check. */
  lemma CheckDoesNotRefresh(c: Cache, userName: string, t0: int, t: int)
    requires userName in c.entries && Live(c.entries[userName], t0)
    requires t0 <= t
    ensures Count(HasExceededMaxAttempts(c, userName, t0).cache, userName, t) == Count(c, userName, t)
    ensures t - c.entries[userName].writtenAt >= ExpireAfterWriteMillis ==>
      Count(HasExceededMaxAttempts(c, userName, t0).cache, userName, t) == 0
  { }

  /** Successive adds for one user at the given times. */
  ghost function AddRepeatedly(c: Cache, userName: string, times: seq<int>): Cache
    decreases |times|
  {
    if |times| == 0 then c
    else AddRepeatedly(AddUserToLoginAttempts(c, userName, times[0]), userName, times[1..])
  }

  /** Times that never go backwards and never leave a 15-minute gap. */
  predicate Steady(times: seq<int>)
  {
    forall i :: 0 < i < |times| ==> times[i - 1] <= times[i] && times[i] - times[i - 1] < ExpireAfterWriteMillis
  }

  /** `n` adds at steady times raise the count, read at the last of them, by exactly `n`. */
  lemma {:induction false} AddRepeatedlyCounts(c: Cache, userName: string, times: seq<int>)
    requires |times| > 0 && Steady(times)
    ensures Count(AddRepeatedly(c, userName, times), userName, times[|times| - 1]) ==
      Count(c, userName, times[0]) + |times|
    decreases |times|
  {
    var next := AddUserToLoginAttempts(c, userName, times[0]);
    if |times| == 1 {
      assert AddRepeatedly(next, userName, times[1..]) == next;
    } else {
      var rest := times[1..];
      assert Steady(rest) by {
        forall i | 0 < i < |rest|
          ensures rest[i - 1] <= rest[i] && rest[i] - rest[i - 1] < ExpireAfterWriteMillis
        {
          assert rest[i - 1] == times[i] && rest[i] == times[i + 1];
        }
      }
      AddThenWait(c, userName, times[0], rest[0]);
      AddRepeatedlyCounts(next, userName, rest);
      assert rest[|rest| - 1] == times[|times| - 1];
    }
  }

  /** From a count of 0, four steady adds stay under the limit and the fifth reaches it. */
  lemma FifthAttemptExceeds(c: Cache, userName: string, times: seq<int>)
    requires |times| == 5 && Steady(times)
    requires Count(c, userName, times[0]) == 0
    ensures !HasExceededMaxAttempts(AddRepeatedly(c, userName, times[..4]), userName, times[3]).value
    ensures HasExceededMaxAttempts(AddRepeatedly(c, userName, times), userName, times[4]).value
  {
    assert Steady(times[..4]);
    AddRepeatedlyCounts(c, userName, times[..4]);
    AddRepeatedlyCounts(c, userName, times);
  }
}

=== FILE: user_service_impl.dfy ===
/** The decision logic of `UserServiceImpl`: the login path
    (`loadUserByUsername`, `validateLoginAttempt`), the user-name and e-mail
    uniqueness check, the profile-image content-type guard and the role lookup.
    The JPA repository is a sequence of stored rows; a finder returns the first
    row that matches, and `save` merges by id. */
module UserServiceImpl {
  import opened JavaLang
  import opened Domain
  import opened LoginAttempt

  const NoUserFoundByUserName: string := "No user found by userName"
  const ImageJpegValue: string := "image/jpeg"
  const ImagePngValue: string := "image/png"
  const ImageGifValue: string := "image/gif"

  datatype UserRepository = UserRepository(rows: seq<User>)

  /** The first row satisfying `matches`, or null. */
  function FirstMatch(rows: seq<User>, matches: User -> bool): (r: Nullable<User>)
    ensures r.NonNull? <==> exists i :: 0 <= i < |rows| && matches(rows[i])
    ensures r.NonNull? ==> r.value in rows && matches(r.value)
    decreases |rows|
  {
    if |rows| == 0 then Null
    else if matches(rows[0]) then NonNull(rows[0])
    else
      var r := FirstMatch(rows[1..], matches);
      assert forall i :: 0 < i < |rows| ==> rows[i] == rows[1..][i - 1];
      r
  }

  /** Some row has this user name. */
  ghost predicate NameTaken(repo: UserRepository, userName: Nullable<string>)
  {
    userName.NonNull? && exists i :: 0 <= i < |repo.rows| && repo.rows[i].userName == userName.value
  }

  /** Some row has this e-mail. */
  ghost predicate EmailTaken(repo: UserRepository, email: Nullable<string>)
  {
    email.NonNull? && exists i :: 0 <= i < |repo.rows| && repo.rows[i].email == email.value
  }

  /** No two rows share a user name or an e-mail. */
  predicate UniqueKeys(repo: UserRepository)
  {
    forall i, j :: 0 <= i < |repo.rows| && 0 <= j < |repo.rows| && i != j ==>
      repo.rows[i].userName != repo.rows[j].userName && repo.rows[i].email != repo.rows[j].email
  }

  /** `findUserByUserName`; a null name matches no stored user. */
  function FindUserByUserName(repo: UserRepository, userName: Nullable<string>): (r: Nullable<User>)
    ensures r.NonNull? <==> NameTaken(repo, userName)
    ensures r.NonNull? ==> r.value in repo.rows && r.value.userName == userName.value
  {
    if userName.Null? then Null else FirstMatch(repo.rows, (u: User) => u.userName == userName.value)
  }

  /** `findUserByEmail`; a null e-mail matches no stored user. */
  function FindUserByEmail(repo: UserRepository, email: Nullable<string>): (r: Nullable<User>)
    ensures r.NonNull? <==> EmailTaken(repo, email)
    ensures r.NonNull? ==> r.value in repo.rows && r.value.email == email.value
  {
    if email.Null? then Null else FirstMatch(repo.rows, (u: User) => u.email == email.value)
  }

  /** `userRepository.save(user)`: replace the row with the same id, or append. */
  function Save(repo: UserRepository, user: User): (r: UserRepository)
    ensures user in r.rows
    ensures forall x :: x in repo.rows && x.id != user.id ==> x in r.rows
    ensures forall x :: x in r.rows ==> x == user || (x in repo.rows && x.id != user.id)
  {
    var replaced := seq(|repo.rows|, i requires 0 <= i < |repo.rows| =>
      if repo.rows[i].id == user.id then user else repo.rows[i]);
    assert forall k :: 0 <= k < |repo.rows| && repo.rows[k].id != user.id ==> replaced[k] == repo.rows[k];
    if exists i :: 0 <= i < |repo.rows| && repo.rows[i].id == user.id then
      var i :| 0 <= i < |repo.rows| && repo.rows[i].id == user.id;
      assert replaced[i] == user;
      UserRepository(replaced)
    else
      assert replaced == repo.rows;
      UserRepository(replaced + [user])
  }

  /** The user and the attempt cache after `validateLoginAttempt`. */
  datatype Checked = Checked(user: User, cache: Cache)

  /** `validateLoginAttempt`: an unlocked user accrues one attempt and becomes
      locked once the count reaches the limit; a locked user's count is
      evicted and the lock flag is left alone. */
  ghost function ValidateLoginAttempt(user: User, cache: Cache, now: int): (r: Checked)
    ensures r.user == user.(notLocked := r.user.notLocked)
    ensures user.notLocked ==>
      Count(r.cache, user.userName, now) == Count(cache, user.userName, now) + 1
    ensures user.notLocked ==>
      (r.user.notLocked <==> Count(cache, user.userName, now) + 1 < MaximumNoOfAttempts)
    ensures user.notLocked ==> forall k :: k in r.cache.entries && k != user.userName ==>
      k in cache.entries && r.cache.entries[k] == cache.entries[k]
    ensures !user.notLocked ==> r.user == user
    ensures !user.notLocked ==> forall t :: Count(r.cache, user.userName, t) == 0
    ensures !user.notLocked ==> forall k, t :: k != user.userName ==> Count(r.cache, k, t) == Count(cache, k, t)
    ensures Bounded(cache) ==> Bounded(r.cache)
  {
    if user.notLocked then
      var added := AddUserToLoginAttempts(cache, user.userName, now);
      var check := HasExceededMaxAttempts(added, user.userName, now);
      Checked(user.(notLocked := !check.value), check.cache)
    else
      Checked(user, EvictUserFromLoginAttemptCache(cache, user.userName))
  }

  /** What a successful `loadUserByUsername` leaves behind. */
  datatype Login = Login(principal: UserPrincipal, repository: UserRepository, cache: Cache)

  /** `loadUserByUsername`: an unknown name fails before anything is saved or
      counted; a known user goes through the attempt check, has its previous
      login date moved to the display field and `now` recorded, and is saved. */
  ghost function LoadUserByUsername(repo: UserRepository, cache: Cache, userName: string, now: Millis): (r: Completion<Login>)
    ensures r.Abrupt? <==> !NameTaken(repo, NonNull(userName))
    ensures r.Abrupt? ==> r.exception == UsernameNotFoundException("User not Found by userName: " + userName)
    ensures r.Normal? ==>
      var before := FindUserByUserName(repo, NonNull(userName)).value;
      var after := r.value.principal.user;
      && before in repo.rows
      && after.userName == userName
      && after == before.(notLocked := after.notLocked,
                          lastLoginDateDisplay := before.lastLoginDate,
                          lastLoginDate := NonNull(now))
      && after in r.value.repository.rows
      && (forall x :: x in repo.rows && x.id != before.id ==> x in r.value.repository.rows)
      && (forall x :: x in r.value.repository.rows ==> x == after || (x in repo.rows && x.id != before.id))
      && (forall k :: k in r.value.cache.entries && k != userName ==>
            k in cache.entries && r.value.cache.entries[k] == cache.entries[k])
      && (Bounded(cache) ==> Bounded(r.value.cache))
      && (before.notLocked ==>
            Count(r.value.cache, userName, now) == Count(cache, userName, now) + 1
            && (after.notLocked <==> Count(cache, userName, now) + 1 < MaximumNoOfAttempts))
      && (!before.notLocked ==> !after.notLocked && forall t :: Count(r.value.cache, userName, t) == 0)
      && (!before.notLocked ==>
            forall k, t :: k != userName ==> Count(r.value.cache, k, t) == Count(cache, k, t))
  {
    var found := FindUserByUserName(repo, NonNull(userName));
    if found.Null? then Abrupt(UsernameNotFoundException("User not Found by userName: " + userName))
    else
      var checked := ValidateLoginAttempt(found.value, cache, now);
      var user := checked.user.(lastLoginDateDisplay := checked.user.lastLoginDate, lastLoginDate := NonNull(now));
      Normal(Login(UserPrincipal(user), Save(repo, user), checked.cache))
  }

  /** `validateNewUserNameAndEmail`. With a blank current name (registration)
      the new name, then the new e-mail, must be free, and the answer is null.
      Otherwise the current user must exist, the new name and then the new
      e-mail may only belong to that same user id, and the answer is that user. */
  function ValidateNewUserNameAndEmail(repo: UserRepository, currentUserName: Nullable<string>,
                                       newUserName: Nullable<string>, newEmail: Nullable<string>): (r: Completion<Nullable<User>>)
    ensures IsBlank(currentUserName) ==>
      (r == Abrupt(UserNameExistException) <==> NameTaken(repo, newUserName))
    ensures IsBlank(currentUserName) ==>
      (r == Abrupt(EmailExistException) <==> !NameTaken(repo, newUserName) && EmailTaken(repo, newEmail))
    ensures IsBlank(currentUserName) ==>
      (r == Normal(Null) <==> !NameTaken(repo, newUserName) && !EmailTaken(repo, newEmail))
    ensures !IsBlank(currentUserName) && !NameTaken(repo, currentUserName) ==>
      r == Abrupt(UsernameNotFoundException(NoUserFoundByUserName + " " + currentUserName.value))
    ensures !IsBlank(currentUserName) && NameTaken(repo, currentUserName) ==>
      var current := FindUserByUserName(repo, currentUserName).value;
      var byName := FindUserByUserName(repo, newUserName);
      var byEmail := FindUserByEmail(repo, newEmail);
      var nameClash := byName.NonNull? && byName.value.id != current.id;
      var emailClash := byEmail.NonNull? && byEmail.value.id != current.id;
      && (r == Abrupt(UserNameExistException) <==> nameClash)
      && (r == Abrupt(EmailExistException) <==> !nameClash && emailClash)
      && (r.Normal? <==> !nameClash && !emailClash)
      && (r.Normal? ==> r.value == NonNull(current) && current.userName == currentUserName.value)
  {
    var byName := FindUserByUserName(repo, newUserName);
    var byEmail := FindUserByEmail(repo, newEmail);
    if !IsBlank(currentUserName) then
      var current := FindUserByUserName(repo, currentUserName);
      if current.Null? then
        Abrupt(UsernameNotFoundException(NoUserFoundByUserName + " " + currentUserName.value))
      else if byName.NonNull? && current.value.id != byName.value.id then
        Abrupt(UserNameExistException)
      else if byEmail.NonNull? && current.value.id != byEmail.value.id then
        Abrupt(EmailExistException)
      else
        Normal(current)
    else if byName.NonNull? then
      Abrupt(UserNameExistException)
    else if byEmail.NonNull? then
      Abrupt(EmailExistException)
    else
      Normal(Null)
  }

  /** A stored user who keeps their own name and e-mail passes the check
      and gets their own row back. */
  lemma KeepingOwnNameAndEmailPasses(repo: UserRepository, u: User)
    requires UniqueKeys(repo) && u in repo.rows
    requires !IsBlank(NonNull(u.userName))
    ensures ValidateNewUserNameAndEmail(repo, NonNull(u.userName), NonNull(u.userName), NonNull(u.email)) ==
      Normal(NonNull(u))
  { }

  /** Renaming a stored user to the name of a user with another id is refused. */
  lemma TakingAnotherUsersNameFails(repo: UserRepository, u: User, other: User, newEmail: Nullable<string>)
    requires UniqueKeys(repo) && u in repo.rows && other in repo.rows
    requires other.id != u.id
    requires !IsBlank(NonNull(u.userName))
    ensures ValidateNewUserNameAndEmail(repo, NonNull(u.userName), NonNull(other.userName), newEmail) ==
      Abrupt(UserNameExistException)
  { }

  /** An uploaded file as `MultipartFile` reports it. */
  datatype MultipartFile = MultipartFile(originalFilename: Nullable<string>, contentType: Nullable<string>)

  /** The content type of a non-null file is one of the three image types. */
  predicate IsImageContentType(contentType: Nullable<string>)
  {
    contentType.NonNull? && contentType.value in [ImageJpegValue, ImagePngValue, ImageGifValue]
  }

  /** The check at the head of `saveProfileImage`: a null file is ignored;
      a file whose content type is not JPEG, PNG or GIF is refused. */
  function SaveProfileImageGuard(profileImage: Nullable<MultipartFile>): (r: Completion<()>)
    ensures profileImage.Null? ==> r.Normal?
    ensures profileImage.NonNull? ==>
      (r.Normal? <==>
        (profileImage.value.contentType in {NonNull(ImageJpegValue), NonNull(ImagePngValue), NonNull(ImageGifValue)}))
    ensures r.Abrupt? ==> r.exception == NotAnImageFileException(
      NullToString(profileImage.value.originalFilename) + " is not an image file please upload an image")
  {
    if profileImage.NonNull? && !IsImageContentType(profileImage.value.contentType) then
      Abrupt(NotAnImageFileException(
        NullToString(profileImage.value.originalFilename) + " is not an image file please upload an image"))
    else
      Normal(())
  }

  /** `getRoleEnumName`: `Role.valueOf(role.toUpperCase())`. */
  function GetRoleEnumName(role: string): (r: Completion<Role>)
    ensures r.Normal? ==> r.value.Name() == ToUpper(role)
    ensures r.Abrupt? <==> forall ro: Role :: ro.Name() != ToUpper(role)
    ensures r.Abrupt? ==> r.exception == IllegalArgumentException
  {
    var name := ToUpper(role);
    if name == RoleUser.Name() then Normal(RoleUser)
    else if name == RoleHr.Name() then Normal(RoleHr)
    else if name == RoleManager.Name() then Normal(RoleManager)
    else if name == RoleAdmin.Name() then Normal(RoleAdmin)
    else if name == RoleSuperAdmin.Name() then Normal(RoleSuperAdmin)
    else Abrupt(IllegalArgumentException)
  }

  /** Every role is found by its own name, in upper or in lower case. */
  lemma {:induction false} RoleNamesResolve(ro: Role)
    ensures GetRoleEnumName(ro.Name()) == Normal(ro)
    ensures GetRoleEnumName(ToLower(ro.Name())) == Normal(ro)
  {
    var name := ro.Name();
    assert forall i :: 0 <= i < |name| ==> 'A' <= name[i] <= 'Z' || name[i] == '_';
    assert ToUpper(name) == name;
    assert ToUpper(ToLower(name)) == name;
  }
}
